=== FILE: README.md ===
# Horizontal drag and fetch tracking hooks, modelled in Dafny

This project models two React hooks from a storefront front end.

- **`useHorizontalDrag`** lets a user drag an item sideways inside a container with the mouse or a finger. The item must be wider than the container. The hook binds drag handlers on the container only while the item overflows. A pressed move clamps the pointer's distance from the gesture's anchor into `[clientWidth - itemWidth, 0]`. The hook also exposes `currentlyDragging`, which callers use to suppress the click that ends a drag. The flag is cleared by a 1 ms timer after release, not at release itself.
- **`useFetch`** runs a caller-supplied request. It tracks the returned data, whether the latest request failed and what it threw, whether a request is in flight, and `isDataInitialised`.

Each hook is an immutable state record with one pure transition per input, plus a `Run` over arbitrary event sequences.

- `horizontal_drag.dfy` (module `HorizontalDrag`) holds the drag state, the handlers, the container and item attributes, and the dispatch of DOM events through the bound handlers.
- `horizontal_drag_properties.dfy` holds the invariants and sequence lemmas about dragging.
- `fetch.dfy` and `fetch_properties.dfy` do the same for `useFetch`.
- `wrappers.dfy` holds `Option`.

## How React state is modelled

A handler reads the state that the previous event committed. Its `setState` calls are visible only in the state it returns. The model keeps this literally. In a pressed move, `currentX` becomes the clamped value, but `xOffset` and the applied translation take the value `currentX` had *before* the move (`useHorizontalDrag.tsx:139-143`). So the item shows where the previous move clamped to. `TranslationLagsOneMove` and `ScenarioOverflowingItem` state this one-move lag.

The lower bound is `clientWidth - itemWidth` with no `min(0, …)` (`useHorizontalDrag.tsx:137`). The clamp is lodash's: it caps at the upper bound first, then raises to the lower bound, so the lower bound wins when the bounds cross. In this model the draggable effect runs on every layout event. Handlers are therefore bound only while that bound is negative (`Valid`, `PressedMoveClamps`), and the crossed case is never reached through the handlers.

The clamp invariant holds only between layouts. When a window resize keeps dragging enabled, the draggable effect leaves `currentX` and the applied translation as they were (`useHorizontalDrag.tsx:73-83`). A resize that narrows the overflow can therefore leave the item past the new bound until the next move (`ResizeLeavesItemOutOfBounds`). `BoundsHoldBetweenLayouts` is scoped to histories without layout events for this reason.

The 1 ms timer that clears `currentlyDragging` carries no gesture identity (`useHorizontalDrag.tsx:110-112`). A timer left from one gesture can therefore clear the flag in the middle of the next drag, while the item is still pressed (`StaleTimerClearsNextDrag`).

`useFetch` records whatever a failed request threw, and that may be `undefined` (`useFetch.ts:64-68`). A failure can therefore show `fetchError: true` with `fetchErrorObject: undefined`. The model's rejection reason is an `Option` for this reason.

A request can also resolve to `undefined`, and the hook stores that as the data (`useFetch.ts:62-63`). The doc comment on `isDataInitialised` says it is true once a successful request has been made (`useFetch.ts:19-22`). The code instead derives it from `data !== undefined` (`useFetch.ts:84`). The model follows the code: a resolved value is an `Option`, and a success with `undefined` leaves `isDataInitialised` false, or clears it if data was defined before (`UndefinedSuccessDeinitialises`). So data stays initialised only through histories that neither reset nor resolve to `undefined` (`InitialisedUntilReset`).

## Model

| member | source | states |
|---|---|---|
| HorizontalDrag.Init | useHorizontalDrag.tsx:51-62 | The hook starts unpressed, not draggable, not dragging, with `currentX`, `initialX`, `xOffset`, the translation and the item width 0, the container unmeasured and no timer pending |
| HorizontalDrag.Clamp | useHorizontalDrag.tsx:136-138 | lodash clamp: with ordered bounds the result lies in them, equals the input when the input is inside, and is the crossed bound otherwise; with crossed bounds the lower bound wins |
| HorizontalDrag.Relayout | useHorizontalDrag.tsx:73-83 | Dragging is enabled iff the container is mounted and strictly narrower than the stored item width. Disabling it resets the translation to 0. No drag variable and not the item width changes |
| HorizontalDrag.MeasureItem | useHorizontalDrag.tsx:62-83 | The item width is its `offsetWidth`, or 0 when unmeasured, in which case dragging ends up disabled. The draggable test then runs against that width |
| HorizontalDrag.OnDragStart | useHorizontalDrag.tsx:85-107 | A press always anchors at `x - xOffset`. It registers only on the item or a descendant and never clears an earlier press |
| HorizontalDrag.OnDrag | useHorizontalDrag.tsx:118-147 | An unpressed move changes nothing. A pressed move sets the flag and clamps `x - initialX` into the container bounds as `currentX`. Offset and translation take the old `currentX`. With the container unmounted only the flag changes |
| HorizontalDrag.OnDragEnd | useHorizontalDrag.tsx:109-116 | A release clears the press, re-anchors at `currentX` and schedules one timer. The flag is left as it was |
| HorizontalDrag.OnTimerFired | useHorizontalDrag.tsx:110-112 | A pending timer clears the flag without checking which gesture scheduled it. With none pending nothing changes |
| HorizontalDrag.ContainerHandlers | useHorizontalDrag.tsx:157-167 | All six props are bound while draggable: starts to `onDragStart`, moves to `onDrag`, ends to `onDragEnd`. Otherwise none are |
| HorizontalDrag.ContainerAttributes | useHorizontalDrag.tsx:149-170 | The container always has its style. It has handlers exactly when dragging is enabled |
| HorizontalDrag.ItemAttributes | useHorizontalDrag.tsx:171-178 | The item gets its fixed style and no handlers |
| HorizontalDrag.PointerX | useHorizontalDrag.tsx:127-134 | A touch event is read at its first touch point and a mouse event at `clientX` |
| HorizontalDrag.Dispatch | useHorizontalDrag.tsx:157-166 | With dragging disabled an event changes nothing. Otherwise each start, move or end event runs its handler |
| HorizontalDragProperties.RunPreservesValid | useHorizontalDrag.tsx:73-143 | From any valid state, every event sequence keeps it valid: dragging implies overflow, a disabled drag shows translation 0, and `currentX`, `xOffset` and the translation are never positive |
| HorizontalDragProperties.ReachableStatesAreValid | useHorizontalDrag.tsx:51-143 | The first render is valid, so every state reachable from it is valid |
| HorizontalDragProperties.DraggableFollowsLatestLayout | useHorizontalDrag.tsx:62-83 | After any history, the widths are the latest measured ones, and `draggable` is the overflow test of the latest container width against the latest item width. Without overflow the container has no handlers and the translation is 0 |
| HorizontalDragProperties.UnmeasuredItemIsNotDraggable | useHorizontalDrag.tsx:64-83 | Measuring an item with no width disables dragging, zeroes the translation and binds no handlers |
| HorizontalDragProperties.ZeroWidthItemStaysUndraggable | useHorizontalDrag.tsx:64-66 | The item is measured once. If it measured 0, no later resize or input ever enables dragging, binds handlers or moves the item |
| HorizontalDragProperties.PressedMoveClamps | useHorizontalDrag.tsx:123-145 | A pressed move on a draggable container puts `currentX` in `[clientWidth - itemWidth, 0]`, a non-empty range. An in-range value is kept unchanged. The flag is set, and offset and translation take the old `currentX` |
| HorizontalDragProperties.UnpressedMoveIsNoop | useHorizontalDrag.tsx:123 | A move without a press leaves the whole state unchanged, flag included |
| HorizontalDragProperties.StartPressesOnlyOnItem | useHorizontalDrag.tsx:90-106 | A press anchors at `x - xOffset` wherever it lands. It sets `pressed` iff it lands on the item or a descendant, or a press was already in force |
| HorizontalDragProperties.ReleaseDefersFlagReset | useHorizontalDrag.tsx:109-116 | A release clears the press and re-anchors at `currentX`. The flag survives it and a reset is pending |
| HorizontalDragProperties.TouchActsAsMouseAtFirstTouch | useHorizontalDrag.tsx:90-134 | Touch start, move and end act exactly as the mouse event at the first touch's `clientX`. Further touches are ignored |
| HorizontalDragProperties.TranslationLagsOneMove | useHorizontalDrag.tsx:139-143 | After two pressed moves the translation equals the first move's clamped value. `currentX` equals the second's |
| HorizontalDragProperties.BoundsHoldBetweenLayouts | useHorizontalDrag.tsx:136-139 | With no layout change, any event sequence keeps `currentX` within the current `[clientWidth - itemWidth, 0]` |
| HorizontalDragProperties.ResizeLeavesItemOutOfBounds | useHorizontalDrag.tsx:73-83 | A resize that keeps dragging enabled does not re-clamp. With container 300 and item 500, the item sits at -200, and after a resize to 400 it stays at -200 while the bound is -100 |
| HorizontalDragProperties.OnlyMovesAndLayoutsTranslate | useHorizontalDrag.tsx:85-116 | Presses, releases and timers never change `currentX`, `xOffset` or the translation |
| HorizontalDragProperties.DragFlagNeedsPressedMove | useHorizontalDrag.tsx:123-124 | The flag is raised only by a move delivered while pressed and draggable, so a gesture without a move never raises it |
| HorizontalDragProperties.DragFlagOutlivesRelease | useHorizontalDrag.tsx:109-116 | After press, move and release the flag is still set. The next timer clears it |
| HorizontalDragProperties.TapNeverRaisesFlag | useHorizontalDrag.tsx:85-116 | Press then release with no move leaves the flag false throughout, timer included |
| HorizontalDragProperties.StaleTimerClearsNextDrag | useHorizontalDrag.tsx:110-112 | A timer from an earlier gesture clears the flag in the middle of a later, still pressed drag |
| HorizontalDragProperties.ScenarioEqualWidths | useHorizontalDrag.tsx:73-83 | Equal container and item widths: not draggable, no handlers, translation 0 |
| HorizontalDragProperties.ScenarioOverflowingItem | useHorizontalDrag.tsx:118-145 | Widths 300 and 500: moves give -60, then -200 (clamped), then 0 (clamped), each shown one move late. A window resize that widens the container to 600 disables dragging and zeroes the translation |
| Fetch.EmptyFetchError | useFetch.ts:41-44 | The empty error info has no failure flag and no thrown value |
| Fetch.Initial | useFetch.ts:53-55 | The hook starts with no data, no error and no request in flight |
| Fetch.BeginFetch | useFetch.ts:58-59 | Starting a request clears the error and marks a request in flight. Earlier data is kept |
| Fetch.CompleteFetch | useFetch.ts:60-71 | The resolved value, even `undefined`, replaces the data and keeps the error info. A throw sets the failure flag, records the thrown reason as it is (possibly `undefined`) and keeps the data. Either way nothing is in flight |
| Fetch.FetchData | useFetch.ts:57-72 | A whole successful fetch ends with the resolved value (possibly `undefined`) as data and no error. A failed one keeps the old data and records the thrown value. Neither leaves a request in flight |
| Fetch.Reset | useFetch.ts:74-78 | Reset yields exactly the initial state from any state |
| Fetch.View | useFetch.ts:80-87 | The returned object spreads the error info, and `isDataInitialised` is true iff `data` is defined |
| FetchProperties.RunMatchesHistory | useFetch.ts:57-78 | After any history, `data` is the value of the latest success since the latest reset, `undefined` if that success resolved to `undefined`. The error flag is set iff a failure is not yet followed by a begin or reset, and the recorded reason is that failure's. A request is in flight iff the last event was a begin |
| FetchProperties.FailureKeepsInitialisedData | useFetch.ts:64-68 | A failed fetch keeps the data and with it `isDataInitialised`, and shows the error flag with the thrown reason, even an `undefined` one |
| FetchProperties.InitialisedUntilReset | useFetch.ts:84 | Once data is defined, any history with no reset and no request resolving to `undefined` keeps `isDataInitialised` true |
| FetchProperties.UndefinedSuccessDeinitialises | useFetch.ts:62-63 | A fetch that succeeds with `undefined` leaves `isDataInitialised` false, even when data was defined before, and shows no error and no request in flight |
| FetchProperties.NoErrorWhileFetching | useFetch.ts:58-59 | While a request is in flight no error flag or thrown value is shown |
| FetchProperties.ResetIsIdempotent | useFetch.ts:74-78 | A second reset changes nothing. A reset after any history gives the initial state, with data not initialised |

## Left out

- DOM refs and the item element: the item is assumed mounted whenever a handler or the effect runs, so the ref checks at `useHorizontalDrag.tsx:69`, `:99` and `:142` always pass. Container mounting is modelled as `clientWidth = None`.
- Window size (`useWindowInfo`) and React's effect scheduling: `MeasureItem` stands for the mount-time item measurement and the effect run it triggers. `Layout` stands for one effect run after a window resize, carrying the container's width at that moment. A container that reflows without the effect re-running is not modelled. In the source, that case can bind handlers while `clientWidth - itemWidth >= 0`.
- Re-measuring the item: the source measures it once, on mount. The model accepts `MeasureItem` at any point, which is a superset of the source's behaviour.
- Timer timing: the 1 ms delay is not modelled. `TimerFired` is an event that can arrive at any point after the release that scheduled it.
- `preventDefault`, the `ref` attribute and style objects: styles are string maps, and the translation is an integer field instead of a CSS `transform` string.
- Pixel coordinates are integers, not floating-point numbers.
- Fetch.CompleteFetch: the data type `T` is taken to be a non-function type (API response data). React's `setData` would call a resolved function as an updater on the previous data instead of storing it (`useFetch.ts:63`).
- Fetch.FetchData: carries the same non-function assumption on `T`, because it rests on `CompleteFetch` storing the resolved value.
- FetchProperties.RunMatchesHistory: carries the same non-function assumption on `T`, because it rests on `CompleteFetch` storing the resolved value.
- FetchProperties.InitialisedUntilReset: carries the same non-function assumption on `T`, because it rests on `CompleteFetch` storing the resolved value.
- `useFetch`: React's separate render between `setData` and `setIsFetching(false)` is not modelled. A completion is one step.
- `useFetch`: overlapping `fetchData` calls are not modelled. Event sequences are arbitrary, but each completion is taken to settle the most recent request.
- The REST controllers, session and report services, schemas, the GraphQL client, the clock hook and the presentational components are not part of this model. They are routing, persistence, I/O or markup.

=== FILE: fetch.dfy ===
/** The `useFetch` hook: it runs a caller-supplied request and tracks whether a
    request is in flight, what it last returned and whether it last failed.

    The asynchronous `fetchData` is split into two steps. `BeginFetch` covers
    the state updates made before the request is awaited. `CompleteFetch`
    covers the updates made once it settles. A fetch is one begin followed by
    one completion. */
module Fetch {
  import opened Wrappers

  /** The error half of the state: whether the latest request failed, and the
      value it threw (`None` stands for `undefined`). */
  datatype FetchErrorInfo<E> = FetchErrorInfo(fetchError: bool, fetchErrorObject: Option<E>)

  /** `emptyFetchError`: no failure recorded. */
  function EmptyFetchError<E>(): (r: FetchErrorInfo<E>)
    ensures !r.fetchError && r.fetchErrorObject.None?
  {
    FetchErrorInfo(false, None)
  }

  /** The hook's three state variables. `data` is `None` while undefined. */
  datatype FetchState<T, E> = FetchState(data: Option<T>, errorInfo: FetchErrorInfo<E>, isFetching: bool)

  /** The state on first render: no data, no error, not fetching. */
  function Initial<T, E>(): (s: FetchState<T, E>)
    ensures s.data.None? && s.errorInfo == EmptyFetchError() && !s.isFetching
  {
    FetchState(None, EmptyFetchError(), false)
  }

  /** How the request settled: with a value, or by throwing. Either may be
      `undefined` (`None`): a request that returns nothing resolves to
      `undefined`, and `Promise.reject()` throws `undefined`. */
  datatype Outcome<T, E> = Resolved(value: Option<T>) | Rejected(error: Option<E>)

  /** The part of `fetchData` before the request is awaited. It clears the error
      and marks a request in flight. The data from any earlier request stays
      visible. */
  function BeginFetch<T, E>(s: FetchState<T, E>): (r: FetchState<T, E>)
    ensures r.data == s.data
    ensures !r.errorInfo.fetchError && r.errorInfo.fetchErrorObject.None?
    ensures r.isFetching
  {
    s.(errorInfo := EmptyFetchError(), isFetching := true)
  }

  /** The part of `fetchData` after the request settles. The resolved value,
      even an `undefined` one, replaces the data and leaves the error info alone. A throw sets the failure flag,
      records the thrown reason as it is (possibly `undefined`) and leaves the
      data alone. Either way, the `finally` block
      ends the request. */
  function CompleteFetch<T, E>(s: FetchState<T, E>, outcome: Outcome<T, E>): (r: FetchState<T, E>)
    ensures !r.isFetching
    ensures outcome.Resolved? ==> r.data == outcome.value && r.errorInfo == s.errorInfo
    ensures outcome.Rejected? ==>
      && r.data == s.data
      && r.errorInfo.fetchError
      && r.errorInfo.fetchErrorObject == outcome.error
  {
    match outcome
    case Resolved(v) => s.(data := v, isFetching := false)
    case Rejected(e) => s.(errorInfo := FetchErrorInfo(true, e), isFetching := false)
  }

  /** A whole `fetchData` call whose request settles with `outcome`. */
  function FetchData<T, E>(s: FetchState<T, E>, outcome: Outcome<T, E>): (r: FetchState<T, E>)
    ensures !r.isFetching
    ensures outcome.Resolved? ==> r.data == outcome.value && r.errorInfo == EmptyFetchError()
    ensures outcome.Rejected? ==>
      && r.data == s.data
      && r.errorInfo == FetchErrorInfo(true, outcome.error)
  {
    CompleteFetch(BeginFetch(s), outcome)
  }

  /** `reset`: the initial state again, whatever came before. */
  function Reset<T, E>(s: FetchState<T, E>): (r: FetchState<T, E>)
    ensures r == Initial()
    ensures r.data.None? && !r.errorInfo.fetchError && !r.isFetching
  {
    s.(data := None, errorInfo := EmptyFetchError(), isFetching := false)
  }

  /** The value the hook returns, without the two callbacks. */
  datatype FetchView<T, E> = FetchView(
    data: Option<T>,
    fetchError: bool,
    fetchErrorObject: Option<E>,
    isFetching: bool,
    isDataInitialised: bool)

  /** The hook's return value. The error info is spread into it, and
      `isDataInitialised` is derived from whether `data` is defined. */
  function View<T, E>(s: FetchState<T, E>): (v: FetchView<T, E>)
    ensures v.data == s.data && v.isFetching == s.isFetching
    ensures v.fetchError == s.errorInfo.fetchError
    ensures v.fetchErrorObject == s.errorInfo.fetchErrorObject
    ensures v.isDataInitialised <==> s.data.Some?
  {
    FetchView(s.data, s.errorInfo.fetchError, s.errorInfo.fetchErrorObject, s.isFetching, s.data.Some?)
  }

  /** An input to the hook: the start of a request, its settling, or a reset. */
  datatype FetchEvent<T, E> = Begin | Complete(outcome: Outcome<T, E>) | ResetRequested

  function Step<T, E>(s: FetchState<T, E>, ev: FetchEvent<T, E>): FetchState<T, E>
  {
    match ev
    case Begin => BeginFetch(s)
    case Complete(outcome) => CompleteFetch(s, outcome)
    case ResetRequested => Reset(s)
  }

  /** Applies the events in order. */
  function Run<T, E>(s: FetchState<T, E>, evs: seq<FetchEvent<T, E>>): FetchState<T, E>
    decreases |evs|
  {
    if |evs| == 0 then s else Step(Run(s, evs[..|evs| - 1]), evs[|evs| - 1])
  }
}

=== FILE: fetch_properties.dfy ===
/** Properties of the fetch state machine over arbitrary event sequences. The
    reference definitions below read the outcome straight off the event
    history. */
module FetchProperties {
  import opened Wrappers
  import opened Fetch

  /** The value of the latest successful request since the latest reset, which
      is `undefined` when that request resolved to `undefined`. */
  function LatestData<T, E>(evs: seq<FetchEvent<T, E>>): Option<T>
    decreases |evs|
  {
    if |evs| == 0 then None
    else match evs[|evs| - 1]
      case Complete(Resolved(v)) => v
      case ResetRequested => None
      case _ => LatestData(evs[..|evs| - 1])
  }

  /** `Some(reason)` when the latest request failed and no request was begun
      and no reset happened since. `reason` is the thrown value, which may be
      `undefined`. A success does not clear an earlier failure. Only a begin or
      a reset does. */
  function LatestFailure<T, E>(evs: seq<FetchEvent<T, E>>): Option<Option<E>>
    decreases |evs|
  {
    if |evs| == 0 then None
    else match evs[|evs| - 1]
      case Complete(Rejected(e)) => Some(e)
      case Complete(Resolved(_)) => LatestFailure(evs[..|evs| - 1])
      case _ => None
  }

  /** After any history, the hook's state is what the history says. `data` is
      the latest success since the latest reset. The error flag is set exactly
      when some failure has not yet been followed by a begin or reset, and the
      recorded reason is that failure's (`undefined` when nothing is pending). A request is in flight
      exactly when the last event was a begin. */
  lemma {:induction false} RunMatchesHistory<T, E>(evs: seq<FetchEvent<T, E>>)
    ensures Run(Initial(), evs).data == LatestData(evs)
    ensures Run(Initial(), evs).errorInfo.fetchError <==> LatestFailure(evs).Some?
    ensures Run(Initial(), evs).errorInfo.fetchErrorObject
            == (if LatestFailure(evs).Some? then LatestFailure(evs).value else None)
    ensures Run(Initial(), evs).isFetching <==> |evs| > 0 && evs[|evs| - 1].Begin?
    decreases |evs|
  {
    if |evs| > 0 {
      RunMatchesHistory(evs[..|evs| - 1]);
    }
  }

  /** `isDataInitialised` holds iff `data` is defined. A failed fetch after a
      success therefore leaves it true and keeps the earlier data. */
  lemma FailureKeepsInitialisedData<T, E>(s: FetchState<T, E>, e: Option<E>)
    ensures View(FetchData(s, Rejected(e))).isDataInitialised <==> View(s).isDataInitialised
    ensures FetchData(s, Rejected(e)).data == s.data
    ensures View(FetchData(s, Rejected(e))).fetchError
    ensures View(FetchData(s, Rejected(e))).fetchErrorObject == e
  {
  }

  /** A request that settles by resolving to `undefined`. */
  predicate ResolvesUndefined<T, E>(ev: FetchEvent<T, E>)
  {
    ev.Complete? && ev.outcome.Resolved? && ev.outcome.value.None?
  }

  /** Once data is defined, it stays initialised through any history of
      fetches, failed ones included, that neither resets nor resolves a
      request to `undefined`. Those two are the only ways to lose it. */
  lemma {:induction false} InitialisedUntilReset<T, E>(s: FetchState<T, E>, evs: seq<FetchEvent<T, E>>)
    requires View(s).isDataInitialised
    requires forall i :: 0 <= i < |evs| ==> !evs[i].ResetRequested? && !ResolvesUndefined(evs[i])
    ensures View(Run(s, evs)).isDataInitialised
    decreases |evs|
  {
    if |evs| > 0 {
      var prefix := evs[..|evs| - 1];
      assert forall i :: 0 <= i < |prefix| ==> prefix[i] == evs[i];
      InitialisedUntilReset(s, prefix);
    }
  }

  /** `isDataInitialised` tracks whether `data` is defined, not whether a
      request has succeeded. A request that succeeds with `undefined` leaves it
      false, and even clears it when earlier data was defined, while showing
      no error. */
  lemma UndefinedSuccessDeinitialises<T, E>(s: FetchState<T, E>)
    ensures !View(FetchData(s, Resolved(None))).isDataInitialised
    ensures !View(FetchData(s, Resolved(None))).fetchError
    ensures !View(FetchData(s, Resolved(None))).isFetching
  {
  }

  /** While a request is in flight no error is shown. */
  lemma {:induction false} NoErrorWhileFetching<T, E>(evs: seq<FetchEvent<T, E>>)
    requires Run(Initial(), evs).isFetching
    ensures !View(Run(Initial(), evs)).fetchError
    ensures View(Run(Initial(), evs)).fetchErrorObject.None?
  {
    RunMatchesHistory(evs);
  }

  /** Reset is idempotent. A second reset changes nothing, and a reset erases
      the whole history. */
  lemma ResetIsIdempotent<T, E>(s: FetchState<T, E>, evs: seq<FetchEvent<T, E>>)
    ensures Reset(Reset(s)) == Reset(s)
    ensures Reset(Run(s, evs)) == Initial()
    ensures !View(Reset(s)).isDataInitialised
  {
  }
}

=== FILE: horizontal_drag.dfy ===
/** The `useHorizontalDrag` hook: a container whose single inner item can be
    dragged sideways with the mouse or a finger when the item overflows it.

    The hook's React state becomes one immutable `DragState` record, and each
    input becomes a pure transition. A handler reads the state that the previous
    event committed, and its `setState` calls take effect only in the state it
    returns. That is why a move stores the *previous* `currentX` into `xOffset`
    and into the applied translation. */
module HorizontalDrag {
  import opened Wrappers

  /** The hook's state. The first seven fields are the hook's own variables.
      `clientWidth` is the container's measured width (`None` while the
      container is not mounted). `itemWidth` is the item's measured width.
      `pendingResets` counts the scheduled 1 ms timers that have not fired yet. */
  datatype DragState = DragState(
    pressed: bool,
    currentX: int,
    initialX: int,
    xOffset: int,
    draggable: bool,
    currentlyDragging: bool,
    translateX: int,
    clientWidth: Option<nat>,
    itemWidth: nat,
    pendingResets: nat)

  /** The state on first render. No transform is applied yet, which looks the
      same as `translateX(0px)`. */
  function Init(): (s: DragState)
    ensures !s.pressed && !s.draggable && !s.currentlyDragging
    ensures s.currentX == 0 && s.initialX == 0 && s.xOffset == 0 && s.translateX == 0
    ensures s.clientWidth.None? && s.itemWidth == 0
    ensures s.pendingResets == 0
  {
    DragState(false, 0, 0, 0, false, false, 0, None, 0, 0)
  }

  /** lodash's `clamp(x, lower, upper)`. It bounds `x` above by `upper` first and
      then below by `lower`, so `lower` wins when the bounds are crossed. */
  function Clamp(x: int, lower: int, upper: int): (r: int)
    ensures lower <= upper ==> lower <= r <= upper
    ensures lower <= x <= upper ==> r == x
    ensures lower <= upper < x ==> r == upper
    ensures x < lower ==> r == lower
    ensures upper < lower ==> r == lower
  {
    var capped := if x <= upper then x else upper;
    if capped >= lower then capped else lower
  }

  /** The test in the draggable effect: the container is mounted and is
      strictly narrower than the item. */
  predicate Overflows(clientWidth: Option<nat>, itemWidth: nat)
  {
    clientWidth.Some? && clientWidth.value < itemWidth
  }

  /** The draggable effect (deps: window size and item width), run with the
      container's current `clientWidth` and the stored item width. It does not
      touch the drag variables. When dragging is disabled it resets the applied
      translation to 0. */
  function Relayout(s: DragState, clientWidth: Option<nat>): (r: DragState)
    ensures r.clientWidth == clientWidth
    ensures r.draggable <==> clientWidth.Some? && clientWidth.value < s.itemWidth
    ensures !r.draggable ==> r.translateX == 0
    ensures r.draggable ==> r.translateX == s.translateX
    ensures r.(draggable := s.draggable, translateX := s.translateX, clientWidth := s.clientWidth) == s
  {
    if Overflows(clientWidth, s.itemWidth) then
      s.(clientWidth := clientWidth, draggable := true)
    else
      s.(clientWidth := clientWidth, draggable := false, translateX := 0)
  }

  /** The mount effect that measures the item, followed by the draggable effect
      it triggers. An item with no `offsetWidth` (or width 0) is stored as
      width 0. */
  function MeasureItem(s: DragState, clientWidth: Option<nat>, itemOffsetWidth: Option<nat>): (r: DragState)
    ensures itemOffsetWidth.None? ==> r.itemWidth == 0 && !r.draggable && r.translateX == 0
    ensures itemOffsetWidth.Some? ==> r.itemWidth == itemOffsetWidth.value
    ensures r.clientWidth == clientWidth
    ensures r.draggable <==> clientWidth.Some? && clientWidth.value < r.itemWidth
    ensures !r.draggable ==> r.translateX == 0
    ensures r.(draggable := s.draggable, translateX := s.translateX,
               clientWidth := s.clientWidth, itemWidth := s.itemWidth) == s
  {
    Relayout(s.(itemWidth := itemOffsetWidth.GetOr(0)), clientWidth)
  }

  /** `onDragStart`. The gesture is anchored at `x - xOffset` whatever the
      target was. The press only registers when the target is the item or one
      of its descendants, and an earlier press is never cleared here. */
  function OnDragStart(s: DragState, x: int, onItem: bool): (r: DragState)
    ensures r.initialX == x - s.xOffset
    ensures r.pressed <==> s.pressed || onItem
    ensures r.(initialX := s.initialX, pressed := s.pressed) == s
  {
    s.(initialX := x - s.xOffset, pressed := s.pressed || onItem)
  }

  /** The lower clamp bound `clientWidth - itemWidth` of a state whose container
      is mounted. */
  function MinX(s: DragState): int
    requires s.clientWidth.Some?
  {
    s.clientWidth.value - s.itemWidth
  }

  /** `onDrag`. An unpressed move changes nothing. A pressed move marks the
      gesture as a drag. With the container mounted it also clamps
      `x - initialX` into `[clientWidth - itemWidth, 0]` as the new `currentX`.
      The offset and the applied translation take the value `currentX` had
      before this move. */
  function OnDrag(s: DragState, x: int): (r: DragState)
    ensures !s.pressed ==> r == s
    ensures s.pressed ==> r.currentlyDragging
    ensures s.pressed && s.clientWidth.None? ==> r == s.(currentlyDragging := true)
    ensures s.pressed && s.clientWidth.Some? ==>
      && r.currentX == Clamp(x - s.initialX, MinX(s), 0)
      && r.xOffset == s.currentX
      && r.translateX == s.currentX
      && r.(currentX := s.currentX, xOffset := s.xOffset, translateX := s.translateX,
            currentlyDragging := s.currentlyDragging) == s
    ensures s.pressed && Overflows(s.clientWidth, s.itemWidth) ==>
      MinX(s) <= r.currentX <= 0
  {
    if !s.pressed then s
    else
      var dragging := s.(currentlyDragging := true);
      match s.clientWidth
      case None => dragging
      case Some(_) =>
        dragging.(currentX := Clamp(x - s.initialX, MinX(s), 0),
                  xOffset := s.currentX,
                  translateX := s.currentX)
  }

  /** `onDragEnd`. Releases the press and re-anchors at `currentX`. Clearing
      `currentlyDragging` waits for a scheduled 1 ms timer, so a click that
      follows the release still sees the flag. */
  function OnDragEnd(s: DragState): (r: DragState)
    ensures !r.pressed
    ensures r.initialX == s.currentX
    ensures r.currentlyDragging == s.currentlyDragging
    ensures r.pendingResets == s.pendingResets + 1
    ensures r.(pressed := s.pressed, initialX := s.initialX, pendingResets := s.pendingResets) == s
  {
    s.(initialX := s.currentX, pressed := false, pendingResets := s.pendingResets + 1)
  }

  /** One scheduled timer fires and clears `currentlyDragging`. It does not
      check whether a new gesture has begun since it was scheduled. With no
      timer pending nothing happens. */
  function OnTimerFired(s: DragState): (r: DragState)
    ensures s.pendingResets == 0 ==> r == s
    ensures s.pendingResets > 0 ==> !r.currentlyDragging && r.pendingResets == s.pendingResets - 1
    ensures r.(currentlyDragging := s.currentlyDragging, pendingResets := s.pendingResets) == s
  {
    if s.pendingResets == 0 then s
    else s.(currentlyDragging := false, pendingResets := s.pendingResets - 1)
  }

  /** The six container props the hook can bind. */
  datatype Prop = OnTouchStart | OnTouchEnd | OnTouchMove | OnMouseDown | OnMouseUp | OnMouseMove

  /** The three handlers the hook defines. */
  datatype Handler = DragStartHandler | DragHandler | DragEndHandler

  /** The `clientX` of every active touch. A `touchstart` or `touchmove` always
      has at least one, so the list is non-empty by construction. */
  datatype TouchList = TouchList(first: int, rest: seq<int>)

  /** A DOM event delivered to the container. `onItem` says whether the
      event's target is the item or one of its descendants. */
  datatype DomEvent =
    | TouchStart(touches: TouchList, onItem: bool)
    | TouchMove(touches: TouchList)
    | TouchEnd
    | MouseDown(clientX: int, onItem: bool)
    | MouseMove(clientX: int)
    | MouseUp

  /** The container prop that React routes the event to. */
  function PropOf(e: DomEvent): Prop
  {
    match e
    case TouchStart(_, _) => OnTouchStart
    case TouchMove(_) => OnTouchMove
    case TouchEnd => OnTouchEnd
    case MouseDown(_, _) => OnMouseDown
    case MouseMove(_) => OnMouseMove
    case MouseUp => OnMouseUp
  }

  /** Style of the container, present whether or not dragging is enabled. */
  const ContainerStyle: map<string, string> :=
    map["width" := "100%", "whiteSpace" := "nowrap", "touchAction" := "none"]

  /** Style of the item. */
  const ItemStyle: map<string, string> :=
    map["display" := "inline-block", "touchAction" := "none", "userSelect" := "none"]

  /** The attributes spread on an element. The `ref` attribute is DOM machinery
      and is left out. */
  datatype Attributes = Attributes(style: map<string, string>, handlers: map<Prop, Handler>)

  /** `h` binds prop `p` to `handler`. */
  predicate Binds(h: map<Prop, Handler>, p: Prop, handler: Handler)
  {
    p in h && h[p] == handler
  }

  /** The handler bindings on the container: all six props when dragging is
      enabled and none otherwise. Both start props go to `onDragStart`, both end
      props to `onDragEnd`, and both move props to `onDrag`. */
  function ContainerHandlers(s: DragState): (h: map<Prop, Handler>)
    ensures !s.draggable ==> h == map[]
    ensures s.draggable ==>
      && Binds(h, OnTouchStart, DragStartHandler) && Binds(h, OnMouseDown, DragStartHandler)
      && Binds(h, OnTouchMove, DragHandler) && Binds(h, OnMouseMove, DragHandler)
      && Binds(h, OnTouchEnd, DragEndHandler) && Binds(h, OnMouseUp, DragEndHandler)
  {
    if s.draggable then
      map[OnTouchStart := DragStartHandler, OnTouchEnd := DragEndHandler,
          OnTouchMove := DragHandler, OnMouseDown := DragStartHandler,
          OnMouseUp := DragEndHandler, OnMouseMove := DragHandler]
    else
      map[]
  }

  /** `dragContainerAttributes`: the style plus, when dragging is enabled, the
      six handlers. */
  function ContainerAttributes(s: DragState): (a: Attributes)
    ensures a.style == ContainerStyle
    ensures a.handlers == map[] <==> !s.draggable
    ensures a.handlers == ContainerHandlers(s)
  {
    Attributes(ContainerStyle, ContainerHandlers(s))
  }

  /** `dragItemAttributes`: style only. The translation is written straight into
      the element's style by `setTranslateX` and lives in `translateX`. */
  function ItemAttributes(): (a: Attributes)
    ensures a.style == ItemStyle && a.handlers == map[]
  {
    Attributes(ItemStyle, map[])
  }

  /** Whether the handler bound to an event's prop accepts that event. */
  predicate Accepts(h: Handler, e: DomEvent)
  {
    match h
    case DragStartHandler => e.TouchStart? || e.MouseDown?
    case DragHandler => e.TouchMove? || e.MouseMove?
    case DragEndHandler => e.TouchEnd? || e.MouseUp?
  }

  /** The pointer position a start or move handler reads. For a touch event it
      is the first active touch. Otherwise it is the mouse's `clientX`. */
  function PointerX(e: DomEvent): (x: int)
    requires e.TouchStart? || e.MouseDown? || e.TouchMove? || e.MouseMove?
    ensures e.TouchStart? || e.TouchMove? ==> x == e.touches.first
    ensures e.MouseDown? || e.MouseMove? ==> x == e.clientX
  {
    if e.TouchStart? || e.TouchMove? then e.touches.first else e.clientX
  }

  /** Runs a bound handler on the event it was given. */
  function Invoke(s: DragState, h: Handler, e: DomEvent): DragState
    requires Accepts(h, e)
  {
    match h
    case DragStartHandler => OnDragStart(s, PointerX(e), e.onItem)
    case DragHandler => OnDrag(s, PointerX(e))
    case DragEndHandler => OnDragEnd(s)
  }

  /** Delivers a DOM event to the container. It reaches a handler only when one
      is bound to its prop, which happens only while dragging is enabled. */
  function Dispatch(s: DragState, e: DomEvent): (r: DragState)
    ensures !s.draggable ==> r == s
    ensures s.draggable && (e.TouchStart? || e.MouseDown?) ==> r == OnDragStart(s, PointerX(e), e.onItem)
    ensures s.draggable && (e.TouchMove? || e.MouseMove?) ==> r == OnDrag(s, PointerX(e))
    ensures s.draggable && (e.TouchEnd? || e.MouseUp?) ==> r == OnDragEnd(s)
  {
    var handlers := ContainerHandlers(s);
    var prop := PropOf(e);
    if prop in handlers then Invoke(s, handlers[prop], e) else s
  }

  /** An input to the hook. `MeasureItem` is the mount-time measurement of the
      item together with the draggable effect it triggers. `Layout` is a rerun of
      the draggable effect after a window resize, with the container's current
      width. `Input` is a DOM event on the container. `TimerFired` is the 1 ms
      timer that `onDragEnd` schedules. */
  datatype Event =
    | MeasureItem(containerWidth: Option<nat>, itemOffsetWidth: Option<nat>)
    | Layout(clientWidth: Option<nat>)
    | Input(e: DomEvent)
    | TimerFired

  function Step(s: DragState, ev: Event): DragState
  {
    match ev
    case MeasureItem(clientWidth, itemOffsetWidth) => MeasureItem(s, clientWidth, itemOffsetWidth)
    case Layout(clientWidth) => Relayout(s, clientWidth)
    case Input(e) => Dispatch(s, e)
    case TimerFired => OnTimerFired(s)
  }

  /** Applies the events in order. */
  function Run(s: DragState, evs: seq<Event>): DragState
    decreases |evs|
  {
    if |evs| == 0 then s else Step(Run(s, evs[..|evs| - 1]), evs[|evs| - 1])
  }
}

=== FILE: horizontal_drag_properties.dfy ===
/** Properties of the drag state machine: single-step guarantees of the handlers
    as the container delivers them, and invariants over arbitrary event
    sequences. */
module HorizontalDragProperties {
  import opened Wrappers
  import opened HorizontalDrag

  /** What every reachable state satisfies. Handlers are bound only while the
      item overflows the container, so the lower clamp bound is negative. With
      dragging disabled the applied translation is 0. Offsets never move the
      item right of its natural position. */
  ghost predicate Valid(s: DragState)
  {
    && (s.draggable ==> Overflows(s.clientWidth, s.itemWidth))
    && (!s.draggable ==> s.translateX == 0)
    && s.currentX <= 0
    && s.xOffset <= 0
    && s.translateX <= 0
  }

  predicate IsMove(ev: Event)
  {
    ev.Input? && (ev.e.TouchMove? || ev.e.MouseMove?)
  }

  /** A layout event: the mount-time item measurement or a later rerun of the
      draggable effect. */
  predicate IsLayout(ev: Event)
  {
    ev.MeasureItem? || ev.Layout?
  }

  lemma StepPreservesValid(s: DragState, ev: Event)
    requires Valid(s)
    ensures Valid(Step(s, ev))
  {
  }

  /** The first render is valid. */
  lemma InitIsValid()
    ensures Valid(Init())
  {
  }

  /** Every state reachable from a valid one is valid. */
  lemma {:induction false} RunPreservesValid(s: DragState, evs: seq<Event>)
    requires Valid(s)
    ensures Valid(Run(s, evs))
    decreases |evs|
  {
    if |evs| > 0 {
      RunPreservesValid(s, evs[..|evs| - 1]);
      StepPreservesValid(Run(s, evs[..|evs| - 1]), evs[|evs| - 1]);
    }
  }

  /** Every state the hook can reach from its first render is valid. */
  lemma ReachableStatesAreValid(evs: seq<Event>)
    ensures Valid(Run(Init(), evs))
  {
    InitIsValid();
    RunPreservesValid(Init(), evs);
  }

  /** The item width stored by the latest measurement, or 0 before any. */
  function LatestItemWidth(evs: seq<Event>): nat
    decreases |evs|
  {
    if |evs| == 0 then 0
    else match evs[|evs| - 1]
      case MeasureItem(_, itemOffsetWidth) => itemOffsetWidth.GetOr(0)
      case _ => LatestItemWidth(evs[..|evs| - 1])
  }

  /** The container width read by the latest layout event, or `None` before
      any (the container has not been measured yet). */
  function LatestClientWidth(evs: seq<Event>): Option<nat>
    decreases |evs|
  {
    if |evs| == 0 then None
    else match evs[|evs| - 1]
      case MeasureItem(clientWidth, _) => clientWidth
      case Layout(clientWidth) => clientWidth
      case _ => LatestClientWidth(evs[..|evs| - 1])
  }

  /** Whatever happened in between, the widths are those of the latest
      measurements. Dragging is enabled exactly when the latest layout found a
      mounted container strictly narrower than the item width measured last.
      Otherwise the container carries no handlers and the item sits at
      translation 0. */
  lemma {:induction false} DraggableFollowsLatestLayout(evs: seq<Event>)
    ensures Run(Init(), evs).itemWidth == LatestItemWidth(evs)
    ensures Run(Init(), evs).clientWidth == LatestClientWidth(evs)
    ensures Run(Init(), evs).draggable == Overflows(LatestClientWidth(evs), LatestItemWidth(evs))
    ensures !Run(Init(), evs).draggable ==>
      && ContainerAttributes(Run(Init(), evs)).handlers == map[]
      && Run(Init(), evs).translateX == 0
    decreases |evs|
  {
    RunPreservesValid(Init(), evs);
    if |evs| > 0 {
      DraggableFollowsLatestLayout(evs[..|evs| - 1]);
    }
  }

  /** An item whose width was never measured counts as width 0. A container
      width is never negative, so such an item never overflows and the layout
      disables dragging. */
  lemma UnmeasuredItemIsNotDraggable(s: DragState, clientWidth: Option<nat>)
    ensures !Step(s, MeasureItem(clientWidth, None)).draggable
    ensures Step(s, MeasureItem(clientWidth, None)).translateX == 0
    ensures ContainerAttributes(Step(s, MeasureItem(clientWidth, None))).handlers == map[]
  {
  }

  /** The item is measured only once. If it measured 0, no later window resize,
      press, move, release or timer ever enables dragging or moves the item. */
  lemma {:induction false} ZeroWidthItemStaysUndraggable(s: DragState, evs: seq<Event>)
    requires Valid(s) && s.itemWidth == 0
    requires forall i :: 0 <= i < |evs| ==> !evs[i].MeasureItem?
    ensures Run(s, evs).itemWidth == 0
    ensures !Run(s, evs).draggable
    ensures Run(s, evs).translateX == 0
    ensures ContainerAttributes(Run(s, evs)).handlers == map[]
    decreases |evs|
  {
    if |evs| > 0 {
      var prefix := evs[..|evs| - 1];
      assert forall i :: 0 <= i < |prefix| ==> prefix[i] == evs[i];
      ZeroWidthItemStaysUndraggable(s, prefix);
      RunPreservesValid(s, prefix);
    }
  }

  /** A move while pressed sets `currentX` to `x - initialX` clamped into
      `[clientWidth - itemWidth, 0]`, a range that is never empty here. It
      marks the gesture as a drag. The offset and the applied translation take
      the previous `currentX`. */
  lemma PressedMoveClamps(s: DragState, e: DomEvent)
    requires Valid(s) && s.draggable && s.pressed
    requires e.TouchMove? || e.MouseMove?
    ensures MinX(s) < 0
    ensures Dispatch(s, e).currentX == Clamp(PointerX(e) - s.initialX, MinX(s), 0)
    ensures MinX(s) <= Dispatch(s, e).currentX <= 0
    ensures MinX(s) <= PointerX(e) - s.initialX <= 0 ==> Dispatch(s, e).currentX == PointerX(e) - s.initialX
    ensures Dispatch(s, e).currentlyDragging
    ensures Dispatch(s, e).xOffset == s.currentX && Dispatch(s, e).translateX == s.currentX
  {
  }

  /** A move with no press in force changes nothing at all. That includes
      `currentlyDragging`. */
  lemma UnpressedMoveIsNoop(s: DragState, e: DomEvent)
    requires !s.pressed
    requires e.TouchMove? || e.MouseMove?
    ensures Dispatch(s, e) == s
  {
  }

  /** A press anchors the gesture at `x - xOffset` even when it misses the item.
      It registers only when it lands on the item or a descendant. */
  lemma StartPressesOnlyOnItem(s: DragState, e: DomEvent)
    requires s.draggable
    requires e.TouchStart? || e.MouseDown?
    ensures Dispatch(s, e).initialX == PointerX(e) - s.xOffset
    ensures Dispatch(s, e).pressed <==> s.pressed || e.onItem
    ensures !e.onItem ==> Dispatch(s, e) == s.(initialX := PointerX(e) - s.xOffset)
  {
  }

  /** A release drops the press and re-anchors at `currentX`. It schedules the
      flag's reset instead of clearing it, so the flag survives the release. */
  lemma ReleaseDefersFlagReset(s: DragState, e: DomEvent)
    requires s.draggable
    requires e.TouchEnd? || e.MouseUp?
    ensures !Dispatch(s, e).pressed
    ensures Dispatch(s, e).initialX == s.currentX
    ensures Dispatch(s, e).currentlyDragging == s.currentlyDragging
    ensures Dispatch(s, e).pendingResets > 0
  {
  }

  /** Touch and mouse go through the same formulas. A touch event behaves as the
      mouse event at its first touch point, and further touch points are
      ignored. */
  lemma TouchActsAsMouseAtFirstTouch(s: DragState, x: int, others: seq<int>, onItem: bool)
    ensures Dispatch(s, TouchStart(TouchList(x, others), onItem)) == Dispatch(s, MouseDown(x, onItem))
    ensures Dispatch(s, TouchMove(TouchList(x, others))) == Dispatch(s, MouseMove(x))
    ensures Dispatch(s, TouchEnd) == Dispatch(s, MouseUp)
  {
  }

  /** The applied translation runs one move behind. After two pressed moves the
      item shows where the first move clamped to, not the second. */
  lemma TranslationLagsOneMove(s: DragState, x1: int, x2: int)
    requires Valid(s) && s.draggable && s.pressed
    ensures Dispatch(Dispatch(s, MouseMove(x1)), MouseMove(x2)).translateX
            == Dispatch(s, MouseMove(x1)).currentX
            == Clamp(x1 - s.initialX, MinX(s), 0)
    ensures Dispatch(Dispatch(s, MouseMove(x1)), MouseMove(x2)).currentX
            == Clamp(x2 - s.initialX, MinX(s), 0)
  {
  }

  /** `currentX` lies within `[clientWidth - itemWidth, 0]` of the current
      layout whenever dragging is enabled. */
  ghost predicate InBounds(s: DragState)
  {
    s.draggable && s.clientWidth.Some? ==> MinX(s) <= s.currentX <= 0
  }

  /** Clamp invariant: as long as no layout change intervenes, every sequence of
      presses, moves, releases and timers keeps `currentX` inside the current
      bounds. A layout can break it, because the draggable effect never
      re-clamps (`ResizeLeavesItemOutOfBounds`). */
  lemma {:induction false} BoundsHoldBetweenLayouts(s: DragState, evs: seq<Event>)
    requires Valid(s) && InBounds(s)
    requires forall i :: 0 <= i < |evs| ==> !IsLayout(evs[i])
    ensures InBounds(Run(s, evs))
    decreases |evs|
  {
    if |evs| > 0 {
      var prefix := evs[..|evs| - 1];
      assert forall i :: 0 <= i < |prefix| ==> prefix[i] == evs[i];
      BoundsHoldBetweenLayouts(s, prefix);
      RunPreservesValid(s, prefix);
    }
  }

  /** The draggable effect re-clamps neither `currentX` nor the applied
      translation when dragging stays enabled. Container 300 and item 500: two
      moves from 100 to -400 take both to the bound -200. A resize to 400 keeps
      dragging on but raises the bound to -100, so the item stays at -200,
      100 px past its right edge, until the next move. */
  lemma ResizeLeavesItemOutOfBounds()
    ensures var s0 := Step(Init(), MeasureItem(Some(300), Some(500)));
      var s1 := Step(Step(Step(s0, Input(MouseDown(100, true))), Input(MouseMove(-400))), Input(MouseMove(-400)));
      var s := Step(s1, Layout(Some(400)));
      && InBounds(s1)
      && s.draggable && s.currentX == -200 && s.translateX == -200
      && MinX(s) == -100 && !InBounds(s)
  {
    var s0 := Step(Init(), MeasureItem(Some(300), Some(500)));
    assert s0 == DragState(false, 0, 0, 0, true, false, 0, Some(300), 500, 0);
    var pressed := Step(s0, Input(MouseDown(100, true)));
    assert pressed == DragState(true, 0, 100, 0, true, false, 0, Some(300), 500, 0);
    var moved := Step(pressed, Input(MouseMove(-400)));
    assert moved == DragState(true, -200, 100, 0, true, true, 0, Some(300), 500, 0);
    var s1 := Step(moved, Input(MouseMove(-400)));
    assert s1 == DragState(true, -200, 100, -200, true, true, -200, Some(300), 500, 0);
    var s := Step(s1, Layout(Some(400)));
    assert s == DragState(true, -200, 100, -200, true, true, -200, Some(400), 500, 0);
  }

  /** Presses, releases and timers never move the item. Only moves and layouts
      change `currentX`, `xOffset` or the applied translation. */
  lemma {:induction false} OnlyMovesAndLayoutsTranslate(s: DragState, evs: seq<Event>)
    requires forall i :: 0 <= i < |evs| ==> !IsLayout(evs[i]) && !IsMove(evs[i])
    ensures Run(s, evs).translateX == s.translateX
    ensures Run(s, evs).currentX == s.currentX
    ensures Run(s, evs).xOffset == s.xOffset
    decreases |evs|
  {
    if |evs| > 0 {
      var prefix := evs[..|evs| - 1];
      assert forall i :: 0 <= i < |prefix| ==> prefix[i] == evs[i];
      OnlyMovesAndLayoutsTranslate(s, prefix);
    }
  }

  /** Tap versus drag: `currentlyDragging` goes from false to true only through
      a move delivered while the item is pressed and dragging is enabled. A
      gesture with no move therefore never raises it. */
  lemma {:induction false} DragFlagNeedsPressedMove(s: DragState, evs: seq<Event>)
    requires !s.currentlyDragging
    requires Run(s, evs).currentlyDragging
    ensures exists i :: 0 <= i < |evs| && IsMove(evs[i]) && Run(s, evs[..i]).pressed && Run(s, evs[..i]).draggable
    decreases |evs|
  {
    var n := |evs| - 1;
    var prefix := evs[..n];
    if Run(s, prefix).currentlyDragging {
      DragFlagNeedsPressedMove(s, prefix);
      var i :| 0 <= i < |prefix| && IsMove(prefix[i]) && Run(s, prefix[..i]).pressed && Run(s, prefix[..i]).draggable;
      assert prefix[..i] == evs[..i];
    } else {
      assert evs[..n] == prefix;
    }
  }

  /** The click-suppression window. After press, move and release, the flag is
      still set. It drops once the scheduled timer fires. */
  lemma DragFlagOutlivesRelease(s: DragState, x0: int, x1: int)
    requires s.draggable
    ensures var released := Step(Step(Step(s, Input(MouseDown(x0, true))), Input(MouseMove(x1))), Input(MouseUp));
      && released.currentlyDragging
      && !released.pressed
      && !Step(released, TimerFired).currentlyDragging
  {
  }

  /** A tap that presses and releases without moving never raises the flag,
      before or after the timer. */
  lemma TapNeverRaisesFlag(s: DragState, x0: int, onItem: bool)
    requires !s.currentlyDragging
    ensures var pressed := Step(s, Input(MouseDown(x0, onItem)));
      var released := Step(pressed, Input(MouseUp));
      && !pressed.currentlyDragging
      && !released.currentlyDragging
      && !Step(released, TimerFired).currentlyDragging
  {
  }

  /** The reset timer carries no gesture identity. A timer left over from one
      gesture can fire in the middle of the next drag and clear the flag while
      the item is still pressed. */
  lemma StaleTimerClearsNextDrag()
    ensures var ready := Step(Init(), MeasureItem(Some(300), Some(500)));
      var first := Step(Step(Step(ready, Input(MouseDown(100, true))), Input(MouseMove(40))), Input(MouseUp));
      var second := Step(Step(first, Input(MouseDown(50, true))), Input(MouseMove(20)));
      && second.pressed && second.currentlyDragging
      && Step(second, TimerFired).pressed
      && !Step(second, TimerFired).currentlyDragging
  {
    var ready := Step(Init(), MeasureItem(Some(300), Some(500)));
    assert ready == DragState(false, 0, 0, 0, true, false, 0, Some(300), 500, 0);
    var moved := Step(Step(ready, Input(MouseDown(100, true))), Input(MouseMove(40)));
    assert moved == DragState(true, -60, 100, 0, true, true, 0, Some(300), 500, 0);
    var first := Step(moved, Input(MouseUp));
    assert first == DragState(false, -60, -60, 0, true, true, 0, Some(300), 500, 1);
    var second := Step(Step(first, Input(MouseDown(50, true))), Input(MouseMove(20)));
    assert second == DragState(true, -30, 50, -60, true, true, -60, Some(300), 500, 1);
  }

  /** Equal widths: the item does not overflow, no handlers are bound and the
      translation is 0. */
  lemma ScenarioEqualWidths()
    ensures !Step(Init(), MeasureItem(Some(300), Some(300))).draggable
    ensures ContainerAttributes(Step(Init(), MeasureItem(Some(300), Some(300)))).handlers == map[]
    ensures Step(Init(), MeasureItem(Some(300), Some(300))).translateX == 0
  {
  }

  /** Container 300 wide and item 500 wide, so the bound is -200. A press at 100
      and a move to 40 give `currentX` -60. A move to -400 clamps to -200, and
      a move to 900 clamps to 0. Each time the applied translation shows the
      previous value. A window resize that widens the container to 600 then
      disables dragging and resets the translation. */
  lemma ScenarioOverflowingItem()
    ensures var s0 := Step(Init(), MeasureItem(Some(300), Some(500)));
      var s1 := Step(s0, Input(MouseDown(100, true)));
      var s2 := Step(s1, Input(MouseMove(40)));
      var s3 := Step(s2, Input(MouseMove(-400)));
      var s4 := Step(s3, Input(MouseMove(900)));
      var s5 := Step(s4, Layout(Some(600)));
      && s0.draggable && s1.pressed && s1.initialX == 100
      && s2.currentX == -60 && s2.translateX == 0
      && s3.currentX == -200 && s3.translateX == -60
      && s4.currentX == 0 && s4.translateX == -200
      && !s5.draggable && s5.translateX == 0
      && ContainerAttributes(s5).handlers == map[]
  {
    var s0 := Step(Init(), MeasureItem(Some(300), Some(500)));
    assert s0 == DragState(false, 0, 0, 0, true, false, 0, Some(300), 500, 0);
    var s1 := Step(s0, Input(MouseDown(100, true)));
    assert s1 == DragState(true, 0, 100, 0, true, false, 0, Some(300), 500, 0);
    var s2 := Step(s1, Input(MouseMove(40)));
    assert s2 == DragState(true, -60, 100, 0, true, true, 0, Some(300), 500, 0);
    var s3 := Step(s2, Input(MouseMove(-400)));
    assert s3 == DragState(true, -200, 100, -60, true, true, -60, Some(300), 500, 0);
    var s4 := Step(s3, Input(MouseMove(900)));
    assert s4 == DragState(true, 0, 100, -200, true, true, -200, Some(300), 500, 0);
  }
}

=== FILE: wrappers.dfy ===
/** A value that may be absent: JavaScript's `undefined`, or a DOM ref whose
    element is not mounted. */
module Wrappers {

  datatype Option<+T> = None | Some(value: T) {

    /** The wrapped value, or `default` when there is none (JavaScript's `v || default`
        for values that are never falsy). */
    function GetOr(default: T): (r: T)
      ensures Some? ==> r == value
      ensures None? ==> r == default
    {
      match this
      case Some(v) => v
      case None => default
    }
  }
}
